=== FILE: README.md ===
# POS front end: cart, purchase and scan-session model in Dafny

This project models the client-side transaction logic of a point-of-sale web front end:

- the **home page** (`src/app/page.tsx`): one page-state record (`productCode`, `currentProduct`,
  `cart`, `loading`, `error`, `productNotFound`) and its four handlers — editing the code, loading
  a product by code, adding the loaded product to the cart, and submitting the purchase — as pure
  steps on that record;
- the **cart**: line items keyed by product id (`prd_id`), aggregation of repeated adds, the
  running total, and the purchase rows built from the cart;
- the **barcode scanner component** (`src/components/BarcodeScanner.tsx`): rear-camera selection,
  the once-only initialisation guard, start-outcome handling, the stop routine and the three exit
  paths (decode, close, unmount) that call it.

Backend calls (`getProductByCode`, `createPurchase`) and camera-library calls (`getCameras`,
`start`, `stop`) are not executed: each handler takes their outcome as a parameter and reports the
requests or actions it issued, in order. A handler that issues nothing has an empty request list,
which is how "this never reaches the network" is stated.

Files: `wrappers.dfy` (Option), `text.dfy` (JavaScript `trim`, ASCII `toLowerCase`, `includes`),
`api.dfy` (record shapes of `src/lib/api.ts`, call outcomes, requests), `cart.dfy`,
`home_page.dfy`, `barcode_scanner.dfy`.

Behaviour of the code that the model keeps as written:

- a 404, a network error and an unreadable body all reach the page as one outcome
  (`LookupFailed`), so "product not found" and "transport failure" are not distinguished;
- a 2xx lookup whose JSON body is `null` clears the loaded product but does not raise the
  not-found banner (`NullBody`);
- a successful lookup does not copy the catalogue's code back into the code field;
- purchase rows carry `product_id`, `quantity`, `unit_price` and `subtotal`, and the amount announced after a purchase is the client's own `floor(total * 1.1)`, not a
  backend total;
- the scanner hands the caller at most one decoded text only when its stop call succeeds: if a
  stop that throws leaves the library scanning (assumed, see "## Left out"), the next frame is
  delivered too, because the component has no delivery guard of its own
  (`BarcodeScanner.FailedStopDeliversTwice`);
- the decode callback calls `onScanSuccess` and then the stop routine with nothing guarding the
  first call: if `onScanSuccess` throws, the stop routine is skipped, the device keeps scanning
  and the next frame is delivered too (`BarcodeScanner.ThrowingCallbackDeliversTwice`);
- after a start failure the component stays in the failed phase (the error stays shown); there is
  no separate transition from `Failed` to `Stopped`;
- the effect's cleanup always calls the stop routine, but that routine only stops the camera when
  it is already scanning. A cleanup that runs while the start is still pending therefore stops
  nothing, and a second, guarded effect run
  (React strict mode) registers no cleanup at all. In both cases, if the pending start then
  succeeds, the camera is left scanning after unmount unless a decode or the close button stops it
  (`BarcodeScanner.UnmountDuringStartLeavesCameraRunning`,
  `BarcodeScanner.StrictModeUnmountLeavesCameraRunning`).

## Model

| member | source | states |
|---|---|---|
| Text.TrimEmptyIffAllWhitespace | src/app/page.tsx:20 | `!productCode.trim()` holds exactly when the code is empty or all whitespace |
| Text.TrimIsMiddleSlice | src/app/page.tsx:20 | the trimmed code is a contiguous slice of the code with all-whitespace margins, and does not start or end with whitespace |
| Text.IncludesIffOccurs | src/components/BarcodeScanner.tsx:32-34 | the left-to-right `includes` search succeeds exactly when the keyword occurs at some position of the label |
| Text.OccursLowerIffFolded | src/components/BarcodeScanner.tsx:32-34 | an occurrence in the lower-cased label at a position is an occurrence there ignoring ASCII case |
| Text.LowerIncludesIffFolded | src/components/BarcodeScanner.tsx:32-34 | `label.toLowerCase().includes(kw)` holds exactly when kw occurs in the label ignoring ASCII case |
| Text.ToLower | src/components/BarcodeScanner.tsx:32-34 | lower-casing keeps the length, leaves no ASCII capital, and changes a character only by mapping a capital to its lower-case letter |
| Cart.NewLine | src/app/page.tsx:54-58 | a product entering the cart gets a line with its id, code, name and price, quantity 1 and subtotal equal to quantity times price |
| Cart.Find | src/app/page.tsx:44 | the search finds a line exactly when some line has the product's id, and what it finds is the first line of the cart with that id |
| Cart.AddProduct | src/app/page.tsx:44-60 | a product already in the cart keeps the length, raises that line's quantity by 1 and sets its subtotal from the line's stored price, leaving other lines equal; a new product appends one line carrying its id, code, name and price, with quantity 1 and subtotal = price, after the unchanged earlier lines |
| Cart.Total | src/app/page.tsx:95 | the total of an empty cart is 0 |
| Cart.TotalAppend | src/app/page.tsx:95 | appending a line adds its subtotal to the total |
| Cart.TotalFromFront | src/app/page.tsx:95 | the left fold equals the sum taken from the front |
| Cart.TotalIsQuantityTimesPrice | src/app/page.tsx:95 | on a consistent cart the total is the sum of quantity times stored price |
| Cart.AddProductKeepsInv | src/app/page.tsx:44-60 | adding keeps one line per product id and subtotal = quantity × price with quantity ≥ 1 on every line |
| Cart.TotalUpdateAt | src/app/page.tsx:47-51 | replacing one line changes the total by the difference of the two subtotals |
| Cart.AddProductTotal | src/app/page.tsx:44-60 | adding raises the total by the stored price of the existing line, or by the product's own price for a new line, so later catalogue prices never reach lines already in the cart |
| Cart.QuantityOfAppend | src/app/page.tsx:59 | quantities held per product add up over a concatenation |
| Cart.QuantityOfUpdateAt | src/app/page.tsx:47-51 | replacing one line changes the quantity held for its product only |
| Cart.AddProductQuantity | src/app/page.tsx:44-60 | one add raises the quantity held for the added product by exactly 1 and no other product's quantity |
| Cart.BuildCounts | src/app/page.tsx:41-65 | after any sequence of adds from an empty cart, the cart is consistent and holds for each product as many units as it was added |
| Cart.AddSameProductTwice | src/app/page.tsx:44-59 | product 12 at 150 added twice gives one line of quantity 2, subtotal 300, total 300 |
| Cart.ToPurchaseItems | src/app/page.tsx:77-82 | one purchase row per cart line, in order, with product_id = prd_id, quantity, unit_price = price and subtotal copied |
| Cart.PurchaseItemsFaithful | src/app/page.tsx:77-84 | the rows of a consistent cart are consistent, name each product once, and sum to the cart total |
| HomePage.Initial | src/app/page.tsx:12-17 | the page starts with an empty code and cart, nothing loaded, no error, no banner, not loading |
| HomePage.EditCode | src/app/page.tsx:115 | typing replaces the code field and nothing else |
| HomePage.TaxIncluded | src/app/page.tsx:85 | the announced amount is the floor of total × 11/10 |
| HomePage.LoadProduct | src/app/page.tsx:19-39 | a blank code sets the input error and sends nothing; otherwise the code as typed is looked up once, the error is cleared, and the outcome sets the loaded product and the not-found banner; cart and code never change |
| HomePage.AddToCart | src/app/page.tsx:41-65 | with nothing loaded the state is unchanged; otherwise the cart becomes the aggregated cart and code, loaded product and banner are cleared |
| HomePage.Purchase | src/app/page.tsx:67-93 | an empty cart sets the empty-cart error and sends nothing; otherwise exactly one request with the cart's rows is sent; success empties the cart and announces the tax-inclusive total, failure keeps the cart and sets the failure error |
| HomePage.ApplyKeepsInv | src/app/page.tsx:19-93 | every handler keeps the cart invariant, ends not loading, never shows "loaded" and "not found" together, and sends only non-blank codes and non-empty consistent purchases |
| HomePage.RunKeepsInv | src/app/page.tsx:19-93 | the same holds over any session of events |
| HomePage.RetryAfterFailedPurchase | src/app/page.tsx:76-89 | after a failed purchase the cart is unchanged, so a retry posts the same rows and announces the same amount |
| HomePage.BlankCodeIgnoresBackend | src/app/page.tsx:20-23 | with a blank code the result does not depend on any lookup outcome |
| HomePage.EmptyCartIgnoresBackend | src/app/page.tsx:68-71 | with an empty cart the result does not depend on any purchase outcome |
| HomePage.LoadAddTwice | src/app/page.tsx:19-65 | loading and adding a new product twice appends one line of quantity 2 and subtotal 2 × price, earlier lines untouched |
| BarcodeScanner.Initial | src/components/BarcodeScanner.tsx:12-15 | the component starts uninitialised, with no pending start, no scanner, not scanning, no error and no registered cleanup |
| BarcodeScanner.FirstRear | src/components/BarcodeScanner.tsx:31-34 | the index found is the first device whose lower-cased label contains back, rear or environment; none is found only when no label does |
| BarcodeScanner.SelectCamera | src/components/BarcodeScanner.tsx:31-35 | the chosen camera is a member of the list: the first rear-facing one, or the first device when none is |
| BarcodeScanner.IsRearLabelIff | src/components/BarcodeScanner.tsx:31-34 | a label is rear-facing exactly when "back", "rear" or "environment" occurs in it, ignoring ASCII case |
| BarcodeScanner.Mount | src/components/BarcodeScanner.tsx:17-22 | a guarded effect run (hasInitialized already set) changes nothing, calls nothing and leaves no cleanup registered; the first run sets the guard, asks for the cameras, marks the start pending and registers the stop routine as cleanup |
| BarcodeScanner.StartSettled | src/components/BarcodeScanner.tsx:23-61 | with no start pending nothing happens; otherwise a failed enumeration or a throwing start shows the start-failure message, an empty list shows "camera not found" with no scanner created, and a non-empty list creates the scanner and starts it on the selected camera, scanning on success |
| BarcodeScanner.Stop | src/components/BarcodeScanner.tsx:72-82 | a no-op unless a scanner exists and is scanning; a successful stop leaves it not scanning, a throwing stop changes nothing |
| BarcodeScanner.Decode | src/components/BarcodeScanner.tsx:45-49 | a frame while scanning delivers the text to the caller first and then runs the stop routine; when `onScanSuccess` throws, the stop routine is skipped and the state is unchanged; without scanning nothing happens |
| BarcodeScanner.Close | src/components/BarcodeScanner.tsx:84-87 | closing calls stop exactly when the device is scanning, then calls onClose, and ends in the stop routine's state |
| BarcodeScanner.Teardown | src/components/BarcodeScanner.tsx:66-69 | the registered cleanup runs the stop routine (one stop call when scanning) and is then unregistered; with no cleanup registered nothing happens |
| BarcodeScanner.StopIdempotent | src/components/BarcodeScanner.tsx:72-82 | after a successful stop any further stop is a no-op |
| BarcodeScanner.ApplyScanFollowsMachine | src/components/BarcodeScanner.tsx:17-87 | every event keeps the component invariant and moves only Uninit → Starting, Starting → Scanning or Failed, Scanning → Stopped, with Failed and Stopped absorbing |
| BarcodeScanner.CountsAppend | src/components/BarcodeScanner.tsx:45-49 | the counts of enumerations, starts, stops and deliveries add over concatenated action lists |
| BarcodeScanner.ApplyScanSpendsBudget | src/components/BarcodeScanner.tsx:17-87 | one event never adds to the enumerations, starts, or (with a returning callback and a successful stop) deliveries still available, and what it spends is taken from them |
| BarcodeScanner.RunScanBounds | src/components/BarcodeScanner.tsx:17-87 | over any session the start sequence runs at most once (never once initialised), and when every `onScanSuccess` returns and every stop succeeds at most one text is delivered |
| BarcodeScanner.SessionFromInitial | src/components/BarcodeScanner.tsx:19-20 | from mount: at most one enumeration, at most one start, at most one delivery when every callback returns and every stop succeeds |
| BarcodeScanner.NoCameraNeverScans | src/components/BarcodeScanner.tsx:26-57 | with no camera no scanner is created, nothing is started or delivered, and "camera not found" is shown |
| BarcodeScanner.StoppedStaysIdle | src/components/BarcodeScanner.tsx:73 | an initialised component with no pending start that is not scanning never starts, stops or delivers again, and its state changes only in the registered cleanup |
| BarcodeScanner.StartFailureNeverScans | src/components/BarcodeScanner.tsx:58-61 | a start that throws leaves the component not scanning with the permission message, and nothing is delivered |
| BarcodeScanner.FailedStopDeliversTwice | src/components/BarcodeScanner.tsx:72-80 | when the first stop throws, a second frame is delivered as well |
| BarcodeScanner.ThrowingCallbackDeliversTwice | src/components/BarcodeScanner.tsx:45-49 | when `onScanSuccess` throws, no stop is made and a second frame is delivered as well |
| BarcodeScanner.UnmountAfterStartReleases | src/components/BarcodeScanner.tsx:66-69 | an unmount after the start has settled stops the camera once |
| BarcodeScanner.UnmountDuringStartLeavesCameraRunning | src/components/BarcodeScanner.tsx:66-82 | an unmount while the start is pending stops nothing, and the camera then scans with no cleanup left |
| BarcodeScanner.StrictModeUnmountLeavesCameraRunning | src/components/BarcodeScanner.tsx:17-20 | effect, cleanup, guarded effect, start, unmount leaves the camera scanning with no stop call |

## Left out

- `src/lib/api.ts` fetch wrappers: only their outcomes are modelled; URLs, headers, JSON encoding and `getProducts` (unused by the page) are not.
- The purchase response body: the page ignores it, so the model does too.
- JSX rendering, `alert`, `toLocaleString`, `console.error` and styling (`tailwind.config.ts`): display only. The alert's amount is kept as the step's `receipt`.
- HomePage.TaxIncluded: computes `floor(total * 11 / 10)` exactly; the source's `Math.floor(totalAmount * 1.1)` uses IEEE doubles and can differ by one for some totals.
- Prices, quantities and subtotals are unbounded integers; JavaScript numbers are doubles and lose precision above 2^53.
- Async interleaving, React state batching and the `loading` button-disable race: each handler is one atomic step, so `loading` is always lowered again before a step ends and the `disabled` attributes are not modelled.
- BarcodeScanner.StartSettled: enumeration, scanner creation and `scanner.start` settle as one event; a cleanup between `getCameras` and the end of `start` finds the device not scanning either way, so nothing observable is lost.
- React's own scheduling is not modelled: any order of effect runs, cleanups, start settlements, frames and clicks is admitted as a session.
- The `Html5Qrcode` library: enumeration, frame decoding, `clear()` and its internal `isScanning` are opaque; frames are only reported while the device is scanning, and a stop that throws is taken to leave it scanning.
- Text.ToLower: lower-cases ASCII letters only; `toLowerCase`'s other Unicode mappings (for example U+212A KELVIN SIGN to `k`) are not modelled.
- The device field `label` is named `deviceLabel`, because `label` is a reserved word in Dafny.
- The `null` device list from `getCameras` is folded into the empty list, which the source treats the same way.

=== FILE: api.dfy ===
/**
 The backend boundary of the front end (src/lib/api.ts): the record shapes it
 exchanges and the outcomes of its two calls. The HTTP transport itself is not
 modelled; a call is represented by the request it carries and the outcome the
 caller observes.
 */
module Api {

  /** A catalogue product as returned by `GET /products/{code}`. */
  datatype Product = Product(prd_id: int, code: string, name: string, price: int)

  /** One row of a purchase request. */
  datatype PurchaseItem = PurchaseItem(product_id: int, quantity: int, unit_price: int, subtotal: int)

  /** What `getProductByCode` hands back to its caller:
      a product; a 2xx response whose JSON body is `null`; or a thrown error
      (non-2xx status such as 404, network failure, unreadable body). */
  datatype LookupOutcome = Found(product: Product) | NullBody | LookupFailed

  /** What `createPurchase` hands back: it resolves (the body is not used) or throws. */
  datatype PurchaseOutcome = Created | PurchaseFailed

  /** A request that reaches the network. */
  datatype Request =
    | GetProduct(code: string)
    | CreatePurchase(items: seq<PurchaseItem>)
}

=== FILE: barcode_scanner.dfy ===
/**
 The scan-session lifecycle of the barcode scanner component
 (src/components/BarcodeScanner.tsx). The camera library is an opaque device
 handle with a scanning flag; camera enumeration, starting and stopping are
 external outcomes given as parameters. Each step reports, in order, the
 library calls and component callbacks it makes.

 The effect is modelled in two steps, because `startScanner` is asynchronous:
 the effect run itself (guard, call to `getCameras`, registration of the
 cleanup), and the later moment at which enumeration and `scanner.start`
 settle. React may run the registered cleanup between the two.
 */
module BarcodeScanner {
  import opened Wrappers
  import opened Text

  /** One enumerated camera (`label` is a reserved word in Dafny). */
  datatype CameraDevice = CameraDevice(id: string, deviceLabel: string)

  /** `scannerRef.current`: the library object, reduced to whether it is scanning. */
  datatype Handle = Handle(scanning: bool)

  /** The component's refs and state, plus what React holds for its effect. */
  datatype ScannerState = ScannerState(
    initialized: bool,        // hasInitialized.current
    starting: bool,           // a startScanner call has not settled yet
    device: Option<Handle>,   // scannerRef.current
    isScanning: bool,         // the isScanning state slot
    error: string,            // the error state slot
    cleanup: bool)            // the effect's registered cleanup is the stop routine

  /** What a step does outside the component's own state. */
  datatype Action =
    | GetCameras                    // Html5Qrcode.getCameras()
    | StartCamera(cameraId: string) // scanner.start(cameraId, ...)
    | StopCamera                    // scanner.stop()
    | ScanSuccess(text: string)     // onScanSuccess(decodedText)
    | Closed                        // onClose()

  /** A step's result: the new state and the actions taken, in order. */
  datatype ScanStep = ScanStep(state: ScannerState, actions: seq<Action>)

  /** What `Html5Qrcode.getCameras()` produced. */
  datatype CameraList = Cameras(devices: seq<CameraDevice>) | EnumerationFailed

  const MsgNoCamera: string := "カメラが見つかりませんでした"
  const MsgStartFailed: string := "カメラの起動に失敗しました。カメラの使用を許可してください。"

  /** The state the component mounts with. */
  function Initial(): (s: ScannerState)
    ensures !s.initialized && !s.starting && s.device.None? && !s.isScanning
    ensures s.error == "" && !s.cleanup
  {
    ScannerState(false, false, None, false, "", false)
  }

  /** The rear-facing heuristic on one label. */
  predicate IsRearLabel(lbl: string) {
    var l := ToLower(lbl);
    Includes(l, "back") || Includes(l, "rear") || Includes(l, "environment")
  }

  /** A label is rear-facing exactly when "back", "rear" or "environment"
      occurs in it, ignoring ASCII case. */
  lemma IsRearLabelIff(lbl: string)
    ensures IsRearLabel(lbl) <==>
      exists i :: OccursFolded(lbl, "back", i) || OccursFolded(lbl, "rear", i)
                  || OccursFolded(lbl, "environment", i)
  {
    LowerIncludesIffFolded(lbl, "back");
    LowerIncludesIffFolded(lbl, "rear");
    LowerIncludesIffFolded(lbl, "environment");
  }

  /** Index of the first device whose label passes the rear-facing heuristic. */
  function FirstRear(devices: seq<CameraDevice>): (r: Option<nat>)
    ensures r.Some? ==> r.value < |devices| && IsRearLabel(devices[r.value].deviceLabel)
    ensures r.Some? ==> forall j :: 0 <= j < r.value ==> !IsRearLabel(devices[j].deviceLabel)
    ensures r.None? ==> forall j :: 0 <= j < |devices| ==> !IsRearLabel(devices[j].deviceLabel)
  {
    if |devices| == 0 then None
    else if IsRearLabel(devices[0].deviceLabel) then Some(0)
    else
      match FirstRear(devices[1..])
      case None => None
      case Some(k) => Some(k + 1)
  }

  /** `devices.find(rear-facing) || devices[0]`. */
  function SelectCamera(devices: seq<CameraDevice>): (cam: CameraDevice)
    requires |devices| > 0
    ensures cam in devices
    ensures IsRearLabel(cam.deviceLabel) ==>
      exists k :: 0 <= k < |devices| && devices[k] == cam
        && forall j :: 0 <= j < k ==> !IsRearLabel(devices[j].deviceLabel)
    ensures !IsRearLabel(cam.deviceLabel) ==>
      cam == devices[0] && forall j :: 0 <= j < |devices| ==> !IsRearLabel(devices[j].deviceLabel)
  {
    match FirstRear(devices)
    case Some(k) => devices[k]
    case None => devices[0]
  }

  /** A run of the effect. A guarded run (`hasInitialized` already set) starts
      nothing and returns no cleanup, so React then holds none; the first run
      sets the guard, asks for the cameras and registers the stop routine as
      its cleanup. */
  function Mount(s: ScannerState): (r: ScanStep)
    ensures s.initialized ==> r.actions == [] && !r.state.cleanup
    ensures s.initialized ==> r.state.(cleanup := s.cleanup) == s
    ensures !s.initialized ==>
      && r.actions == [GetCameras] && r.state.initialized && r.state.starting && r.state.cleanup
      && r.state.device == s.device && r.state.isScanning == s.isScanning
      && r.state.error == s.error
  {
    if s.initialized then ScanStep(s.(cleanup := false), [])
    else ScanStep(s.(initialized := true, starting := true, cleanup := true), [GetCameras])
  }

  /** The moment a pending `startScanner` settles: a failed enumeration or a
      throwing start shows the start-failure message, an empty list shows
      "camera not found" and creates no scanner; otherwise the scanner is
      created and started on the selected camera. */
  function StartSettled(s: ScannerState, cameras: CameraList, startOk: bool): (r: ScanStep)
    ensures !s.starting ==> r == ScanStep(s, [])
    ensures s.starting ==> !r.state.starting && r.state.initialized == s.initialized
    ensures s.starting ==> r.state.cleanup == s.cleanup
    ensures s.starting && (cameras.EnumerationFailed? || |cameras.devices| == 0) ==>
      && r.actions == [] && r.state.device == s.device && r.state.isScanning == s.isScanning
      && r.state.error == (if cameras.EnumerationFailed? then MsgStartFailed else MsgNoCamera)
    ensures s.starting && cameras.Cameras? && |cameras.devices| > 0 ==>
      && r.actions == [StartCamera(SelectCamera(cameras.devices).id)]
      && r.state.device.Some?
      && r.state.device.value.scanning == startOk
      && (startOk ==> r.state.isScanning && r.state.error == s.error)
      && (!startOk ==> r.state.isScanning == s.isScanning && r.state.error == MsgStartFailed)
  {
    if !s.starting then ScanStep(s, [])
    else
      var s1 := s.(starting := false);
      match cameras
      case EnumerationFailed => ScanStep(s1.(error := MsgStartFailed), [])
      case Cameras(devices) =>
        if |devices| == 0 then ScanStep(s1.(error := MsgNoCamera), [])
        else
          var cam := SelectCamera(devices);
          var actions := [StartCamera(cam.id)];
          if startOk then ScanStep(s1.(device := Some(Handle(true)), isScanning := true), actions)
          else ScanStep(s1.(device := Some(Handle(false)), error := MsgStartFailed), actions)
  }

  /** The device exists and is scanning. */
  predicate DeviceScanning(s: ScannerState) {
    s.device.Some? && s.device.value.scanning
  }

  /** `stopScanner`: nothing unless a scanner exists and is scanning; a stop
      that succeeds leaves it not scanning, one that throws changes nothing. */
  function Stop(s: ScannerState, stopOk: bool): (r: ScanStep)
    ensures !DeviceScanning(s) ==> r == ScanStep(s, [])
    ensures DeviceScanning(s) ==> r.actions == [StopCamera]
    ensures DeviceScanning(s) && stopOk ==>
      && !DeviceScanning(r.state) && !r.state.isScanning && r.state.device.Some?
      && r.state.initialized == s.initialized && r.state.starting == s.starting
      && r.state.error == s.error && r.state.cleanup == s.cleanup
    ensures DeviceScanning(s) && !stopOk ==> r.state == s
  {
    if DeviceScanning(s) then
      if stopOk then ScanStep(s.(device := Some(Handle(false)), isScanning := false), [StopCamera])
      else ScanStep(s, [StopCamera])
    else ScanStep(s, [])
  }

  /** The decode callback: the library only reports frames while it is
      scanning; the text goes to the caller first, then the stop routine runs.
      Nothing guards the call to `onScanSuccess`, so when it throws
      (`callbackOk` false) the stop routine is never reached. */
  function Decode(s: ScannerState, text: string, callbackOk: bool, stopOk: bool): (r: ScanStep)
    ensures !DeviceScanning(s) ==> r == ScanStep(s, [])
    ensures DeviceScanning(s) && callbackOk ==>
      r.state == Stop(s, stopOk).state && r.actions == [ScanSuccess(text), StopCamera]
    ensures DeviceScanning(s) && !callbackOk ==>
      r.state == s && r.actions == [ScanSuccess(text)]
  {
    if DeviceScanning(s) then
      if callbackOk then
        var st := Stop(s, stopOk);
        ScanStep(st.state, [ScanSuccess(text)] + st.actions)
      else ScanStep(s, [ScanSuccess(text)])
    else ScanStep(s, [])
  }

  /** `handleClose`: the stop routine, then the caller's `onClose`. */
  function Close(s: ScannerState, stopOk: bool): (r: ScanStep)
    ensures r.state == Stop(s, stopOk).state
    ensures r.actions == (if DeviceScanning(s) then [StopCamera] else []) + [Closed]
  {
    var st := Stop(s, stopOk);
    ScanStep(st.state, st.actions + [Closed])
  }

  /** React running the effect's registered cleanup (on unmount, or between the
      two effect runs of strict mode): the stop routine when one is registered,
      nothing otherwise; afterwards no cleanup is registered. */
  function Teardown(s: ScannerState, stopOk: bool): (r: ScanStep)
    ensures r.actions == (if s.cleanup && DeviceScanning(s) then [StopCamera] else [])
    ensures s.cleanup ==> r.state == Stop(s, stopOk).state.(cleanup := false)
    ensures !s.cleanup ==> r.state == s
  {
    if s.cleanup then
      var st := Stop(s, stopOk);
      ScanStep(st.state.(cleanup := false), st.actions)
    else ScanStep(s, [])
  }

  /** A stop that succeeded makes every later stop a no-op, whatever its outcome. */
  lemma StopIdempotent(s: ScannerState, again: bool)
    ensures var once := Stop(s, true).state;
      Stop(once, again) == ScanStep(once, [])
  {
  }

  /** The invariant of the component's state. */
  predicate ScanInv(s: ScannerState) {
    && (!s.initialized ==> s.device.None? && !s.isScanning && s.error == "" && !s.starting && !s.cleanup)
    && (s.starting ==> s.device.None? && !s.isScanning && s.error == "")
    && (s.isScanning <==> DeviceScanning(s))
    && (s.isScanning ==> s.error == "")
  }

  /** The lifecycle as a finite-state machine over the component's state. */
  datatype Phase = Uninit | Starting | Scanning | Failed(msg: string) | Stopped

  /** The phase a state is in. */
  function PhaseOf(s: ScannerState): Phase {
    if !s.initialized then Uninit
    else if s.starting then Starting
    else if s.isScanning then Scanning
    else if s.error != "" then Failed(s.error)
    else Stopped
  }

  /** The machine's edges: stay put, Uninit → Starting, Starting → Scanning or
      Failed, Scanning → Stopped. */
  predicate Edge(a: Phase, b: Phase) {
    || a == b
    || (a == Uninit && b == Starting)
    || (a == Starting && (b.Scanning? || b.Failed?))
    || (a == Scanning && b == Stopped)
  }

  /** Something the component can experience, with the outcomes of the calls it makes. */
  datatype ScanEvent =
    | Mounted
    | StartDone(cameras: CameraList, startOk: bool)
    | Frame(text: string, callbackOk: bool, stopOk: bool)
    | CloseClicked(stopOk: bool)
    | Unmounted(stopOk: bool)

  /** One event applied to the component. */
  function ApplyScan(s: ScannerState, e: ScanEvent): ScanStep {
    match e
    case Mounted => Mount(s)
    case StartDone(c, ok) => StartSettled(s, c, ok)
    case Frame(t, cb, ok) => Decode(s, t, cb, ok)
    case CloseClicked(ok) => Close(s, ok)
    case Unmounted(ok) => Teardown(s, ok)
  }

  /** Every event keeps the invariant and moves the phase along an edge of the
      machine; `Failed` and `Stopped` are absorbing. */
  lemma ApplyScanFollowsMachine(s: ScannerState, e: ScanEvent)
    requires ScanInv(s)
    ensures ScanInv(ApplyScan(s, e).state)
    ensures Edge(PhaseOf(s), PhaseOf(ApplyScan(s, e).state))
    ensures PhaseOf(s).Failed? || PhaseOf(s).Stopped? ==> PhaseOf(ApplyScan(s, e).state) == PhaseOf(s)
  {
  }

  /** A scan session: the events applied in order, actions collected. */
  function RunScan(s: ScannerState, events: seq<ScanEvent>): ScanStep
    decreases |events|
  {
    if |events| == 0 then ScanStep(s, [])
    else
      var first := ApplyScan(s, events[0]);
      var rest := RunScan(first.state, events[1..]);
      ScanStep(rest.state, first.actions + rest.actions)
  }

  /** Number of camera enumerations among the actions. */
  function Enumerations(actions: seq<Action>): nat {
    if |actions| == 0 then 0
    else (if actions[0] == GetCameras then 1 else 0) + Enumerations(actions[1..])
  }

  /** Number of camera starts among the actions. */
  function Starts(actions: seq<Action>): nat {
    if |actions| == 0 then 0
    else (if actions[0].StartCamera? then 1 else 0) + Starts(actions[1..])
  }

  /** Number of camera stops among the actions. */
  function Stops(actions: seq<Action>): nat {
    if |actions| == 0 then 0
    else (if actions[0] == StopCamera then 1 else 0) + Stops(actions[1..])
  }

  /** Number of decoded texts handed to the caller. */
  function Deliveries(actions: seq<Action>): nat {
    if |actions| == 0 then 0
    else (if actions[0].ScanSuccess? then 1 else 0) + Deliveries(actions[1..])
  }

  /** The counts over a concatenation. */
  lemma {:induction false} CountsAppend(a: seq<Action>, b: seq<Action>)
    ensures Enumerations(a + b) == Enumerations(a) + Enumerations(b)
    ensures Starts(a + b) == Starts(a) + Starts(b)
    ensures Stops(a + b) == Stops(a) + Stops(b)
    ensures Deliveries(a + b) == Deliveries(a) + Deliveries(b)
    decreases |a|
  {
    if |a| > 0 {
      assert (a + b)[1..] == a[1..] + b;
      CountsAppend(a[1..], b);
    } else {
      assert a + b == b;
    }
  }

  /** The event's call to `onScanSuccess` returns normally and its stop call,
      if it makes one, succeeds. */
  predicate CallsOk(e: ScanEvent) {
    match e
    case Mounted => true
    case StartDone(_, _) => true
    case Frame(_, cb, ok) => cb && ok
    case CloseClicked(ok) => ok
    case Unmounted(ok) => ok
  }

  /** Every callback returns and every stop succeeds in the session. */
  predicate CallsSucceed(events: seq<ScanEvent>) {
    forall k :: 0 <= k < |events| ==> CallsOk(events[k])
  }

  /** Enumerations a state may still make: one before the effect has run. */
  function EnumerationBudget(s: ScannerState): nat {
    if s.initialized then 0 else 1
  }

  /** Camera starts a state may still make: one before the effect has run or
      while its start is pending, none afterwards. */
  function StartBudget(s: ScannerState): nat {
    if !s.initialized || s.starting then 1 else 0
  }

  /** Deliveries a state may still make when callbacks return and stops succeed: one until the
      session has scanned and stopped, none afterwards. */
  function DeliveryBudget(s: ScannerState): nat {
    if !s.initialized || s.starting || DeviceScanning(s) then 1 else 0
  }

  /** One event spends from the budgets and never refills them. */
  lemma ApplyScanSpendsBudget(s: ScannerState, e: ScanEvent)
    requires ScanInv(s)
    ensures var r := ApplyScan(s, e);
      && Enumerations(r.actions) + EnumerationBudget(r.state) <= EnumerationBudget(s)
      && Starts(r.actions) + StartBudget(r.state) <= StartBudget(s)
      && (CallsOk(e) ==> Deliveries(r.actions) + DeliveryBudget(r.state) <= DeliveryBudget(s))
  {
    match e
    case CloseClicked(ok) =>
      CountsAppend(Stop(s, ok).actions, [Closed]);
    case _ =>
  }

  /** Over any session, the cameras are enumerated at most once (never once
      initialised), the camera is started at most once, the invariant holds at
      the end, and — when every `onScanSuccess` returns and every stop
      succeeds — at most one decoded text reaches the caller. */
  lemma {:induction false} RunScanBounds(s: ScannerState, events: seq<ScanEvent>)
    requires ScanInv(s)
    ensures ScanInv(RunScan(s, events).state)
    ensures Enumerations(RunScan(s, events).actions) <= EnumerationBudget(s)
    ensures Starts(RunScan(s, events).actions) <= StartBudget(s)
    ensures CallsSucceed(events) ==> Deliveries(RunScan(s, events).actions) <= DeliveryBudget(s)
    decreases |events|
  {
    if |events| > 0 {
      var first := ApplyScan(s, events[0]);
      ApplyScanFollowsMachine(s, events[0]);
      ApplyScanSpendsBudget(s, events[0]);
      RunScanBounds(first.state, events[1..]);
      CountsAppend(first.actions, RunScan(first.state, events[1..]).actions);
      if CallsSucceed(events) {
        assert CallsOk(events[0]);
        assert forall k :: 0 <= k < |events| - 1 ==> events[1..][k] == events[k + 1];
        assert CallsSucceed(events[1..]);
      }
    }
  }

  /** From a freshly mounted component: one enumeration and one start at most,
      and one decoded text at most when every callback returns and every stop
      succeeds. */
  lemma SessionFromInitial(events: seq<ScanEvent>)
    ensures Enumerations(RunScan(Initial(), events).actions) <= 1
    ensures Starts(RunScan(Initial(), events).actions) <= 1
    ensures CallsSucceed(events) ==> Deliveries(RunScan(Initial(), events).actions) <= 1
  {
    RunScanBounds(Initial(), events);
  }

  /** An initialised component with no pending start whose scanner is not
      scanning never starts, stops or delivers anything again: apart from the
      registered cleanup, its state stays as it is. */
  lemma {:induction false} StoppedStaysIdle(s: ScannerState, events: seq<ScanEvent>)
    requires s.initialized && !s.starting && !DeviceScanning(s)
    ensures RunScan(s, events).state == s.(cleanup := RunScan(s, events).state.cleanup)
    ensures Starts(RunScan(s, events).actions) == 0
    ensures Stops(RunScan(s, events).actions) == 0
    ensures Deliveries(RunScan(s, events).actions) == 0
    decreases |events|
  {
    if |events| > 0 {
      var first := ApplyScan(s, events[0]);
      assert first.state == s.(cleanup := first.state.cleanup);
      StoppedStaysIdle(first.state, events[1..]);
      CountsAppend(first.actions, RunScan(first.state, events[1..]).actions);
    }
  }

  /** With no camera the session never scans: no scanner is created, no start
      is attempted, and the "camera not found" message is shown. */
  lemma NoCameraNeverScans(events: seq<ScanEvent>)
    ensures var r := RunScan(Initial(), [Mounted, StartDone(Cameras([]), true)] + events);
      && !r.state.isScanning && r.state.device.None? && r.state.error == MsgNoCamera
      && Starts(r.actions) == 0 && Deliveries(r.actions) == 0
  {
    var all := [Mounted, StartDone(Cameras([]), true)] + events;
    var m := ApplyScan(Initial(), all[0]);
    var first := ApplyScan(m.state, all[1]);
    assert first.state == ScannerState(true, false, None, false, MsgNoCamera, true);
    assert all[1..][1..] == events;
    StoppedStaysIdle(first.state, events);
    CountsAppend(first.actions, RunScan(first.state, events).actions);
    CountsAppend(m.actions, first.actions + RunScan(first.state, events).actions);
  }

  /** A start that throws leaves the component not scanning with the
      permission message, and nothing is ever decoded. */
  lemma StartFailureNeverScans(devices: seq<CameraDevice>, events: seq<ScanEvent>)
    requires |devices| > 0
    ensures var r := RunScan(Initial(), [Mounted, StartDone(Cameras(devices), false)] + events);
      && !r.state.isScanning && r.state.error == MsgStartFailed && Deliveries(r.actions) == 0
  {
    var all := [Mounted, StartDone(Cameras(devices), false)] + events;
    var m := ApplyScan(Initial(), all[0]);
    var first := ApplyScan(m.state, all[1]);
    assert all[1..][1..] == events;
    StoppedStaysIdle(first.state, events);
    CountsAppend(first.actions, RunScan(first.state, events).actions);
    CountsAppend(m.actions, first.actions + RunScan(first.state, events).actions);
  }

  /** When the start settles before the component unmounts, the cleanup
      registered by the first effect run stops the camera. */
  lemma UnmountAfterStartReleases(devices: seq<CameraDevice>)
    requires |devices| > 0
    ensures var r := RunScan(Initial(), [Mounted, StartDone(Cameras(devices), true), Unmounted(true)]);
      && !DeviceScanning(r.state) && !r.state.isScanning && Stops(r.actions) == 1
  {
    var evs := [Mounted, StartDone(Cameras(devices), true), Unmounted(true)];
    var s1 := Mount(Initial());
    var s2 := StartSettled(s1.state, Cameras(devices), true);
    var s3 := Teardown(s2.state, true);
    assert evs[1..][1..] == [Unmounted(true)];
    assert evs[1..][1..][1..] == [];
    assert RunScan(s2.state, evs[1..][1..]).actions == s3.actions + [];
    assert RunScan(s1.state, evs[1..]).actions == s2.actions + s3.actions;
    CountsAppend(s2.actions, s3.actions);
    CountsAppend(s1.actions, s2.actions + s3.actions);
  }

  /** When the component unmounts while the start is still pending, the
      cleanup finds no scanner and does nothing; the start then completes and
      the camera keeps scanning with no cleanup left to stop it. */
  lemma UnmountDuringStartLeavesCameraRunning(devices: seq<CameraDevice>)
    requires |devices| > 0
    ensures var r := RunScan(Initial(), [Mounted, Unmounted(true), StartDone(Cameras(devices), true)]);
      && DeviceScanning(r.state) && !r.state.cleanup && Stops(r.actions) == 0
      && Teardown(r.state, true) == ScanStep(r.state, [])
  {
    var evs := [Mounted, Unmounted(true), StartDone(Cameras(devices), true)];
    var s1 := Mount(Initial());
    var s2 := Teardown(s1.state, true);
    var s3 := StartSettled(s2.state, Cameras(devices), true);
    assert evs[1..][1..] == [StartDone(Cameras(devices), true)];
    assert evs[1..][1..][1..] == [];
    assert RunScan(s2.state, evs[1..][1..]).actions == s3.actions + [];
    assert RunScan(s1.state, evs[1..]).actions == s2.actions + s3.actions;
    CountsAppend(s2.actions, s3.actions);
    CountsAppend(s1.actions, s2.actions + s3.actions);
  }

  /** React strict mode runs the effect, its cleanup, and the effect again
      before the start settles: the second, guarded run registers no cleanup,
      so unmounting later leaves the camera scanning. */
  lemma StrictModeUnmountLeavesCameraRunning(devices: seq<CameraDevice>)
    requires |devices| > 0
    ensures var r := RunScan(Initial(),
      [Mounted, Unmounted(true), Mounted, StartDone(Cameras(devices), true), Unmounted(true)]);
      DeviceScanning(r.state) && r.state.isScanning && Stops(r.actions) == 0
  {
    var evs := [Mounted, Unmounted(true), Mounted, StartDone(Cameras(devices), true), Unmounted(true)];
    var s1 := Mount(Initial());
    var s2 := Teardown(s1.state, true);
    var s3 := Mount(s2.state);
    var s4 := StartSettled(s3.state, Cameras(devices), true);
    var s5 := Teardown(s4.state, true);
    assert s5 == ScanStep(s4.state, []);
    var t := evs[1..];
    assert t[1..][1..][1..] == [Unmounted(true)];
    assert t[1..][1..][1..][1..] == [];
    assert RunScan(s4.state, t[1..][1..][1..]).actions == [];
    assert RunScan(s3.state, t[1..][1..]).actions == s4.actions;
    assert RunScan(s2.state, t[1..]).actions == s4.actions;
    assert RunScan(s1.state, t).actions == s4.actions;
    CountsAppend(s1.actions, s4.actions);
  }

  /** A stop that throws leaves the device scanning, so a second frame is
      delivered as well: the single-delivery bound needs successful stops. */
  lemma FailedStopDeliversTwice()
    ensures var cams := Cameras([CameraDevice("c0", "Back Camera")]);
      var r := RunScan(Initial(), [Mounted, StartDone(cams, true), Frame("4901777300446", true, false),
                                   Frame("4901777300446", true, true)]);
      Deliveries(r.actions) == 2
  {
    var cams := Cameras([CameraDevice("c0", "Back Camera")]);
    var code := "4901777300446";
    var evs := [Mounted, StartDone(cams, true), Frame(code, true, false), Frame(code, true, true)];
    var s0 := Mount(Initial());
    var s1 := StartSettled(s0.state, cams, true);
    assert DeviceScanning(s1.state);
    var s2 := Decode(s1.state, code, true, false);
    assert s2 == ScanStep(s1.state, [ScanSuccess(code), StopCamera]);
    var s3 := Decode(s2.state, code, true, true);
    assert s3.actions == [ScanSuccess(code), StopCamera];
    var t := evs[1..];
    assert t[1..][1..] == [Frame(code, true, true)];
    assert RunScan(s2.state, t[1..][1..]).actions == s3.actions + [] by {
      assert t[1..][1..][1..] == [];
    }
    assert RunScan(s1.state, t[1..]).actions == s2.actions + s3.actions;
    CountsAppend(s2.actions, s3.actions);
    CountsAppend(s1.actions, s2.actions + s3.actions);
    CountsAppend(s0.actions, s1.actions + (s2.actions + s3.actions));
    assert Deliveries(s1.actions) == 0;
  }

  /** A throwing `onScanSuccess` skips the stop routine: the device keeps
      scanning and the next frame is delivered as well. */
  lemma ThrowingCallbackDeliversTwice()
    ensures var cams := Cameras([CameraDevice("c0", "Back Camera")]);
      var r := RunScan(Initial(), [Mounted, StartDone(cams, true), Frame("4901777300446", false, true),
                                   Frame("4901777300446", true, true)]);
      Deliveries(r.actions) == 2 && Stops(r.actions) == 1
  {
    var cams := Cameras([CameraDevice("c0", "Back Camera")]);
    var code := "4901777300446";
    var evs := [Mounted, StartDone(cams, true), Frame(code, false, true), Frame(code, true, true)];
    var s0 := Mount(Initial());
    var s1 := StartSettled(s0.state, cams, true);
    assert DeviceScanning(s1.state);
    var s2 := Decode(s1.state, code, false, true);
    assert s2 == ScanStep(s1.state, [ScanSuccess(code)]);
    var s3 := Decode(s2.state, code, true, true);
    assert s3.actions == [ScanSuccess(code), StopCamera];
    var t := evs[1..];
    assert t[1..][1..] == [Frame(code, true, true)];
    assert RunScan(s2.state, t[1..][1..]).actions == s3.actions + [] by {
      assert t[1..][1..][1..] == [];
    }
    assert RunScan(s1.state, t[1..]).actions == s2.actions + s3.actions;
    CountsAppend(s2.actions, s3.actions);
    CountsAppend(s1.actions, s2.actions + s3.actions);
    CountsAppend(s0.actions, s1.actions + (s2.actions + s3.actions));
    assert Deliveries(s1.actions) == 0 && Stops(s1.actions) == 0;
  }
}

=== FILE: cart.dfy ===
/**
 The cart of the home page (src/app/page.tsx): an ordered sequence of line
 items, one per product identity, each carrying its quantity and subtotal.
 */
module Cart {
  import opened Wrappers
  import opened Api

  /** A cart line: the product's fields copied when it entered the cart, plus
      the quantity and the subtotal. */
  datatype CartItem = CartItem(prd_id: int, code: string, name: string, price: int,
                               quantity: int, subtotal: int)

  /** The line a product gets when it enters the cart for the first time. */
  function NewLine(p: Product): (line: CartItem)
    ensures line.prd_id == p.prd_id && line.code == p.code && line.name == p.name
    ensures line.price == p.price
    ensures line.quantity == 1 && line.subtotal == line.quantity * line.price
  {
    CartItem(p.prd_id, p.code, p.name, p.price, 1, p.price)
  }

  /** The same line with one more unit, its subtotal recomputed from the line's own price. */
  function Bump(line: CartItem): CartItem {
    line.(quantity := line.quantity + 1, subtotal := (line.quantity + 1) * line.price)
  }

  /** Some line of the cart is for product `id`. */
  predicate HasLine(cart: seq<CartItem>, id: int) {
    exists i :: 0 <= i < |cart| && cart[i].prd_id == id
  }

  /** `cart.find(item => item.prd_id === id)`: the first line for `id`, if any. */
  function Find(cart: seq<CartItem>, id: int): (r: Option<CartItem>)
    ensures r.Some? <==> HasLine(cart, id)
    ensures r.Some? ==> r.value in cart && r.value.prd_id == id
    ensures r.Some? ==> exists k :: 0 <= k < |cart| && cart[k] == r.value
                                   && forall j :: 0 <= j < k ==> cart[j].prd_id != id
  {
    if |cart| == 0 then None
    else if cart[0].prd_id == id then Some(cart[0])
    else
      var r := Find(cart[1..], id);
      assert forall i :: 1 <= i < |cart| ==> cart[i] == cart[1..][i - 1];
      r
  }

  /** Each product identity has at most one line. */
  predicate UniqueIds(cart: seq<CartItem>) {
    forall i, j :: 0 <= i < j < |cart| ==> cart[i].prd_id != cart[j].prd_id
  }

  /** A line is consistent: at least one unit, and the subtotal is quantity times price. */
  predicate LineOk(line: CartItem) {
    line.quantity >= 1 && line.subtotal == line.quantity * line.price
  }

  /** The cart invariant the home page maintains. */
  predicate CartInv(cart: seq<CartItem>) {
    UniqueIds(cart) && forall i :: 0 <= i < |cart| ==> LineOk(cart[i])
  }

  /**
   `handleAddToCart`'s cart update: a product that already has a line bumps
   every line with its identity (under `CartInv` there is exactly one);
   otherwise one new line is appended.
   */
  function AddProduct(cart: seq<CartItem>, p: Product): (r: seq<CartItem>)
    ensures HasLine(cart, p.prd_id) ==>
      && |r| == |cart|
      && forall i :: 0 <= i < |cart| && cart[i].prd_id == p.prd_id ==>
           && r[i].prd_id == cart[i].prd_id && r[i].code == cart[i].code
           && r[i].name == cart[i].name && r[i].price == cart[i].price
           && r[i].quantity == cart[i].quantity + 1
           && r[i].subtotal == (cart[i].quantity + 1) * cart[i].price
    ensures HasLine(cart, p.prd_id) ==>
      forall i :: 0 <= i < |cart| && cart[i].prd_id != p.prd_id ==> r[i] == cart[i]
    ensures !HasLine(cart, p.prd_id) ==>
      && |r| == |cart| + 1 && r[..|cart|] == cart
      && r[|cart|].prd_id == p.prd_id && r[|cart|].code == p.code
      && r[|cart|].name == p.name && r[|cart|].price == p.price
      && r[|cart|].quantity == 1 && r[|cart|].subtotal == p.price
  {
    if Find(cart, p.prd_id).Some? then
      seq(|cart|, i requires 0 <= i < |cart| =>
        if cart[i].prd_id == p.prd_id then Bump(cart[i]) else cart[i])
    else
      cart + [NewLine(p)]
  }

  /** `cart.reduce((sum, item) => sum + item.subtotal, 0)`: a left fold over the lines. */
  function Total(cart: seq<CartItem>): (t: int)
    ensures |cart| == 0 ==> t == 0
  {
    if |cart| == 0 then 0 else Total(cart[..|cart| - 1]) + cart[|cart| - 1].subtotal
  }

  /** Sum of quantity times price over the lines: the total as the customer reads it. */
  function QuantityPriceSum(cart: seq<CartItem>): int {
    if |cart| == 0 then 0 else cart[0].quantity * cart[0].price + QuantityPriceSum(cart[1..])
  }

  /** Appending a line adds its subtotal to the total. */
  lemma TotalAppend(cart: seq<CartItem>, line: CartItem)
    ensures Total(cart + [line]) == Total(cart) + line.subtotal
  {
    assert (cart + [line])[..|cart|] == cart;
  }

  /** The total does not depend on the fold's direction: it also peels lines from the front. */
  lemma {:induction false} TotalFromFront(cart: seq<CartItem>)
    requires |cart| > 0
    ensures Total(cart) == cart[0].subtotal + Total(cart[1..])
    decreases |cart|
  {
    if |cart| > 1 {
      TotalFromFront(cart[..|cart| - 1]);
      assert cart[..|cart| - 1][1..] == cart[1..][..|cart| - 2];
    } else {
      assert cart[1..] == [];
    }
  }

  /** On a consistent cart the total is the sum of quantity times stored price. */
  lemma {:induction false} TotalIsQuantityTimesPrice(cart: seq<CartItem>)
    requires CartInv(cart)
    ensures Total(cart) == QuantityPriceSum(cart)
    decreases |cart|
  {
    if |cart| > 0 {
      TotalFromFront(cart);
      assert CartInv(cart[1..]) by {
        assert forall i :: 0 <= i < |cart| - 1 ==> cart[1..][i] == cart[i + 1];
      }
      TotalIsQuantityTimesPrice(cart[1..]);
      assert LineOk(cart[0]);
    }
  }

  /** Adding a product keeps the cart invariant: still one line per product,
      every line still consistent. */
  lemma AddProductKeepsInv(cart: seq<CartItem>, p: Product)
    requires CartInv(cart)
    ensures CartInv(AddProduct(cart, p))
  {
    var r := AddProduct(cart, p);
    if HasLine(cart, p.prd_id) {
      forall i | 0 <= i < |r| ensures LineOk(r[i]) {
        assert LineOk(cart[i]);
      }
    } else {
      forall i | 0 <= i < |r| ensures LineOk(r[i]) {
        if i < |cart| { assert r[i] == r[..|cart|][i]; }
      }
      forall i, j | 0 <= i < j < |r| ensures r[i].prd_id != r[j].prd_id {
        assert r[i] == r[..|cart|][i];
        if j < |cart| { assert r[j] == r[..|cart|][j]; }
      }
    }
  }

  /** Total of a cart that differs from `cart` at one index only. */
  lemma {:induction false} TotalUpdateAt(cart: seq<CartItem>, k: int, line: CartItem)
    requires 0 <= k < |cart|
    ensures Total(cart[k := line]) == Total(cart) - cart[k].subtotal + line.subtotal
    decreases |cart|
  {
    var c2 := cart[k := line];
    if k < |cart| - 1 {
      assert c2[..|cart| - 1] == cart[..|cart| - 1][k := line];
      TotalUpdateAt(cart[..|cart| - 1], k, line);
    } else {
      assert c2[..|cart| - 1] == cart[..|cart| - 1];
    }
  }

  /** The price an add charges: the stored price of the product's line when it
      is already in the cart, the product's own price otherwise. */
  function ChargedPrice(cart: seq<CartItem>, p: Product): int {
    match Find(cart, p.prd_id)
    case Some(line) => line.price
    case None => p.price
  }

  /** Adding a product to a consistent cart raises the total by the price charged
      for it, so a later change of the catalogue price does not reach lines already
      in the cart. */
  lemma AddProductTotal(cart: seq<CartItem>, p: Product)
    requires CartInv(cart)
    ensures Total(AddProduct(cart, p)) == Total(cart) + ChargedPrice(cart, p)
  {
    var r := AddProduct(cart, p);
    if HasLine(cart, p.prd_id) {
      var k :| 0 <= k < |cart| && cart[k].prd_id == p.prd_id;
      assert Find(cart, p.prd_id).value == cart[k];
      assert LineOk(cart[k]);
      assert r == cart[k := Bump(cart[k])];
      TotalUpdateAt(cart, k, Bump(cart[k]));
    } else {
      assert r == cart + [NewLine(p)];
      TotalAppend(cart, NewLine(p));
    }
  }

  /** Total quantity the cart holds for product `id`. */
  function QuantityOf(cart: seq<CartItem>, id: int): int {
    if |cart| == 0 then 0
    else (if cart[0].prd_id == id then cart[0].quantity else 0) + QuantityOf(cart[1..], id)
  }

  /** Number of times `id` occurs in a sequence of added products. */
  function Occurrences(ps: seq<Product>, id: int): nat {
    if |ps| == 0 then 0
    else Occurrences(ps[..|ps| - 1], id) + (if ps[|ps| - 1].prd_id == id then 1 else 0)
  }

  /** The cart obtained by adding the products of `ps` one by one to an empty cart. */
  function Build(ps: seq<Product>): seq<CartItem> {
    if |ps| == 0 then [] else AddProduct(Build(ps[..|ps| - 1]), ps[|ps| - 1])
  }

  /** `QuantityOf` over a concatenation. */
  lemma {:induction false} QuantityOfAppend(a: seq<CartItem>, b: seq<CartItem>, id: int)
    ensures QuantityOf(a + b, id) == QuantityOf(a, id) + QuantityOf(b, id)
    decreases |a|
  {
    if |a| > 0 {
      assert (a + b)[1..] == a[1..] + b;
      QuantityOfAppend(a[1..], b, id);
    } else {
      assert a + b == b;
    }
  }

  /** `QuantityOf` after replacing the line at index `k`. */
  lemma {:induction false} QuantityOfUpdateAt(cart: seq<CartItem>, k: int, line: CartItem, id: int)
    requires 0 <= k < |cart|
    ensures QuantityOf(cart[k := line], id)
         == QuantityOf(cart, id)
            - (if cart[k].prd_id == id then cart[k].quantity else 0)
            + (if line.prd_id == id then line.quantity else 0)
    decreases |cart|
  {
    if k > 0 {
      assert cart[k := line][1..] == cart[1..][k - 1 := line];
      QuantityOfUpdateAt(cart[1..], k - 1, line, id);
    } else {
      assert cart[k := line][1..] == cart[1..];
    }
  }

  /** One add raises the quantity held for the added product by one and leaves
      every other product's quantity alone. */
  lemma AddProductQuantity(cart: seq<CartItem>, p: Product, id: int)
    requires UniqueIds(cart)
    ensures QuantityOf(AddProduct(cart, p), id)
         == QuantityOf(cart, id) + (if id == p.prd_id then 1 else 0)
  {
    if HasLine(cart, p.prd_id) {
      var k :| 0 <= k < |cart| && cart[k].prd_id == p.prd_id;
      assert AddProduct(cart, p) == cart[k := Bump(cart[k])];
      QuantityOfUpdateAt(cart, k, Bump(cart[k]), id);
    } else {
      QuantityOfAppend(cart, [NewLine(p)], id);
      assert [NewLine(p)][1..] == [];
    }
  }

  /** Aggregation is counting: after adding the products of `ps` in turn, the
      cart is consistent and holds, for every product identity, exactly as many
      units as `ps` mentions it. */
  lemma {:induction false} BuildCounts(ps: seq<Product>)
    ensures CartInv(Build(ps))
    ensures forall id :: QuantityOf(Build(ps), id) == Occurrences(ps, id)
    decreases |ps|
  {
    if |ps| > 0 {
      var prev := Build(ps[..|ps| - 1]);
      BuildCounts(ps[..|ps| - 1]);
      AddProductKeepsInv(prev, ps[|ps| - 1]);
      forall id ensures QuantityOf(Build(ps), id) == Occurrences(ps, id) {
        AddProductQuantity(prev, ps[|ps| - 1], id);
      }
    }
  }

  /** Product 12 at price 150 added twice gives one line with quantity 2 and
      subtotal 300, and a total of 300. */
  lemma AddSameProductTwice()
    ensures var p := Product(12, "4901777300446", "item", 150);
      var c := AddProduct(AddProduct([], p), p);
      && |c| == 1 && c[0].prd_id == 12 && c[0].quantity == 2 && c[0].subtotal == 300
      && Total(c) == 300
  {
    var p := Product(12, "4901777300446", "item", 150);
    var c1 := AddProduct([], p);
    assert c1 == [NewLine(p)];
    assert HasLine(c1, 12) by { assert c1[0].prd_id == 12; }
    var c := AddProduct(c1, p);
    assert c == [Bump(NewLine(p))];
  }

  /** `cart.map(...)` into purchase rows. */
  function ToPurchaseItem(line: CartItem): PurchaseItem {
    PurchaseItem(line.prd_id, line.quantity, line.price, line.subtotal)
  }

  /** The purchase rows for a cart, one per line, in cart order. */
  function ToPurchaseItems(cart: seq<CartItem>): (items: seq<PurchaseItem>)
    ensures |items| == |cart|
    ensures forall i :: 0 <= i < |cart| ==>
      && items[i].product_id == cart[i].prd_id && items[i].quantity == cart[i].quantity
      && items[i].unit_price == cart[i].price && items[i].subtotal == cart[i].subtotal
  {
    seq(|cart|, i requires 0 <= i < |cart| => ToPurchaseItem(cart[i]))
  }

  /** A purchase row is consistent and no product appears twice. */
  predicate ItemsOk(items: seq<PurchaseItem>) {
    && (forall i :: 0 <= i < |items| ==>
          items[i].quantity >= 1 && items[i].subtotal == items[i].quantity * items[i].unit_price)
    && (forall i, j :: 0 <= i < j < |items| ==> items[i].product_id != items[j].product_id)
  }

  /** Sum of the rows' subtotals. */
  function ItemsTotal(items: seq<PurchaseItem>): int {
    if |items| == 0 then 0 else ItemsTotal(items[..|items| - 1]) + items[|items| - 1].subtotal
  }

  /** The rows sent for a consistent cart are consistent, name each product once,
      and add up to the cart's total. */
  lemma {:induction false} PurchaseItemsFaithful(cart: seq<CartItem>)
    requires CartInv(cart)
    ensures ItemsOk(ToPurchaseItems(cart))
    ensures ItemsTotal(ToPurchaseItems(cart)) == Total(cart)
    decreases |cart|
  {
    var items := ToPurchaseItems(cart);
    assert forall i :: 0 <= i < |cart| ==> LineOk(cart[i]);
    if |cart| > 0 {
      var front := cart[..|cart| - 1];
      assert CartInv(front);
      PurchaseItemsFaithful(front);
      assert items[..|items| - 1] == ToPurchaseItems(front);
    }
  }
}

=== FILE: home_page.dfy ===
/**
 The transaction state of the home page (src/app/page.tsx) as one record, and
 each event handler as a pure step on it. A handler that calls the backend
 takes the call's outcome as a parameter and reports the requests it sent, so
 that "this input never reaches the network" reads as an empty request list.
 Handlers are atomic: the `loading` flag they raise around a call is lowered
 again before the step ends.
 */
module HomePage {
  import opened Wrappers
  import opened Text
  import opened Api
  import opened Cart

  /** The six `useState` slots of the page. */
  datatype PageState = PageState(
    productCode: string,
    currentProduct: Option<Product>,
    cart: seq<CartItem>,
    loading: bool,
    error: string,
    productNotFound: bool)

  /** A handler's result: the new state, the requests sent, and the
      tax-inclusive amount announced to the operator after a purchase. */
  datatype Step = Step(state: PageState, sent: seq<Request>, receipt: Option<int>)

  const MsgEnterCode: string := "商品コードを入力してください"
  const MsgEmptyCart: string := "カートが空です"
  const MsgPurchaseFailed: string := "購入処理に失敗しました"

  /** The state the page mounts with. */
  function Initial(): (s: PageState)
    ensures s.cart == [] && s.currentProduct.None? && !s.productNotFound && !s.loading
    ensures s.productCode == "" && s.error == ""
  {
    PageState("", None, [], false, "", false)
  }

  /** The code-input field's `onChange`. */
  function EditCode(s: PageState, text: string): (r: PageState)
    ensures r.productCode == text
    ensures r.(productCode := s.productCode) == s
  {
    s.(productCode := text)
  }

  /** `Math.floor(total * 1.1)`, idealised to exact rational arithmetic. */
  function TaxIncluded(total: int): (t: int)
    ensures 10 * t <= 11 * total < 10 * t + 10
  {
    (total * 11) / 10
  }

  /** `handleLoadProduct`: a blank code is rejected locally; otherwise the code
      is looked up exactly as typed and the outcome decides the loaded product. */
  function LoadProduct(s: PageState, outcome: LookupOutcome): (r: Step)
    ensures r.state.cart == s.cart && r.state.productCode == s.productCode
    ensures r.receipt.None?
    ensures AllWhitespace(s.productCode) ==>
      r.sent == [] && r.state == s.(error := MsgEnterCode)
    ensures !AllWhitespace(s.productCode) ==>
      && r.sent == [GetProduct(s.productCode)]
      && r.state.error == "" && !r.state.loading
      && (outcome.Found? ==> r.state.currentProduct == Some(outcome.product) && !r.state.productNotFound)
      && (outcome.NullBody? ==> r.state.currentProduct.None? && !r.state.productNotFound)
      && (outcome.LookupFailed? ==> r.state.currentProduct.None? && r.state.productNotFound)
  {
    TrimEmptyIffAllWhitespace(s.productCode);
    if |Trim(s.productCode)| == 0 then
      Step(s.(error := MsgEnterCode), [], None)
    else
      var loaded := match outcome
        case Found(p) => Some(p)
        case _ => None;
      Step(s.(loading := false, error := "", currentProduct := loaded,
              productNotFound := outcome.LookupFailed?),
           [GetProduct(s.productCode)], None)
  }

  /** `handleAddToCart`: with nothing loaded nothing changes; otherwise the
      loaded product goes into the cart and the loading slots are cleared. */
  function AddToCart(s: PageState): (r: PageState)
    ensures s.currentProduct.None? ==> r == s
    ensures s.currentProduct.Some? ==>
      && r.cart == AddProduct(s.cart, s.currentProduct.value)
      && r.productCode == "" && r.currentProduct.None? && !r.productNotFound
      && r.error == s.error && r.loading == s.loading
  {
    match s.currentProduct
    case None => s
    case Some(p) =>
      s.(cart := AddProduct(s.cart, p), productCode := "", currentProduct := None,
         productNotFound := false)
  }

  /** `handlePurchase`: an empty cart is rejected locally; otherwise the cart's
      rows are posted, and only a successful post empties the cart. */
  function Purchase(s: PageState, outcome: PurchaseOutcome): (r: Step)
    ensures r.state.productCode == s.productCode && r.state.currentProduct == s.currentProduct
    ensures r.state.productNotFound == s.productNotFound
    ensures |s.cart| == 0 ==> r.sent == [] && r.state == s.(error := MsgEmptyCart) && r.receipt.None?
    ensures |s.cart| > 0 ==>
      && |r.sent| == 1 && r.sent[0].CreatePurchase?
      && r.sent[0].items == ToPurchaseItems(s.cart)
      && !r.state.loading
    ensures |s.cart| > 0 && outcome.Created? ==>
      r.state.cart == [] && r.state.error == "" && r.receipt == Some(TaxIncluded(Total(s.cart)))
    ensures |s.cart| > 0 && outcome.PurchaseFailed? ==>
      r.state.cart == s.cart && r.state.error == MsgPurchaseFailed && r.receipt.None?
  {
    if |s.cart| == 0 then
      Step(s.(error := MsgEmptyCart), [], None)
    else
      var request := CreatePurchase(ToPurchaseItems(s.cart));
      match outcome
      case Created =>
        Step(s.(loading := false, error := "", cart := []), [request], Some(TaxIncluded(Total(s.cart))))
      case PurchaseFailed =>
        Step(s.(loading := false, error := MsgPurchaseFailed), [request], None)
  }

  /** The page invariant: a consistent cart, no handler left in flight, and
      never "product loaded" and "product not found" at once. */
  predicate PageInv(s: PageState) {
    CartInv(s.cart) && !s.loading && !(s.productNotFound && s.currentProduct.Some?)
  }

  /** A user action together with the outcome of the call it may make. */
  datatype Event =
    | Type(text: string)
    | Load(lookup: LookupOutcome)
    | AddClicked
    | Buy(purchase: PurchaseOutcome)

  /** One event applied to the page. */
  function Apply(s: PageState, e: Event): Step {
    match e
    case Type(text) => Step(EditCode(s, text), [], None)
    case Load(o) => LoadProduct(s, o)
    case AddClicked => Step(AddToCart(s), [], None)
    case Buy(o) => Purchase(s, o)
  }

  /** A session's result: the final state, every request sent and every
      amount announced, each in order. */
  datatype Session = Session(state: PageState, sent: seq<Request>, receipts: seq<int>)

  /** The amount a step announced, as a sequence of zero or one elements. */
  function Announced(st: Step): seq<int> {
    match st.receipt
    case Some(t) => [t]
    case None => []
  }

  /** A session: the events applied in order, with every request sent and every
      amount announced collected. */
  function Run(s: PageState, events: seq<Event>): Session
    decreases |events|
  {
    if |events| == 0 then Session(s, [], [])
    else
      var first := Apply(s, events[0]);
      var rest := Run(first.state, events[1..]);
      Session(rest.state, first.sent + rest.sent, Announced(first) + rest.receipts)
  }

  /** A request the backend may legitimately see: a non-blank code, or a
      non-empty list of consistent purchase rows naming each product once. */
  predicate WellFormedRequest(q: Request) {
    match q
    case GetProduct(code) => !AllWhitespace(code)
    case CreatePurchase(items) => |items| > 0 && ItemsOk(items)
  }

  /** Every handler keeps the page invariant, and every request it sends is well formed. */
  lemma ApplyKeepsInv(s: PageState, e: Event)
    requires PageInv(s)
    ensures PageInv(Apply(s, e).state)
    ensures forall k :: 0 <= k < |Apply(s, e).sent| ==> WellFormedRequest(Apply(s, e).sent[k])
  {
    match e
    case Type(_) =>
    case Load(_) =>
    case AddClicked =>
      if s.currentProduct.Some? {
        AddProductKeepsInv(s.cart, s.currentProduct.value);
      }
    case Buy(_) =>
      if |s.cart| > 0 {
        PurchaseItemsFaithful(s.cart);
      }
  }

  /** Over any session from a state satisfying the invariant, the invariant
      holds at the end and no blank code or empty or inconsistent purchase
      ever reaches the network. */
  lemma {:induction false} RunKeepsInv(s: PageState, events: seq<Event>)
    requires PageInv(s)
    ensures PageInv(Run(s, events).state)
    ensures forall k :: 0 <= k < |Run(s, events).sent| ==> WellFormedRequest(Run(s, events).sent[k])
    decreases |events|
  {
    if |events| > 0 {
      var first := Apply(s, events[0]);
      ApplyKeepsInv(s, events[0]);
      RunKeepsInv(first.state, events[1..]);
      var all := Run(s, events).sent;
      assert all == first.sent + Run(first.state, events[1..]).sent;
    }
  }

  /** A failed purchase leaves the cart as it was, so retrying posts exactly the
      same rows again and, if that succeeds, announces the same amount. */
  lemma RetryAfterFailedPurchase(s: PageState)
    requires |s.cart| > 0
    ensures var failed := Purchase(s, PurchaseFailed).state;
      && failed.cart == s.cart
      && Purchase(failed, Created).sent == Purchase(s, Created).sent
      && Purchase(failed, Created).receipt == Purchase(s, Created).receipt
  {
  }

  /** A blank code makes the outcome irrelevant: no lookup takes place. */
  lemma BlankCodeIgnoresBackend(s: PageState, o1: LookupOutcome, o2: LookupOutcome)
    requires AllWhitespace(s.productCode)
    ensures LoadProduct(s, o1) == LoadProduct(s, o2)
  {
  }

  /** An empty cart makes the outcome irrelevant: nothing is posted. */
  lemma EmptyCartIgnoresBackend(s: PageState, o1: PurchaseOutcome, o2: PurchaseOutcome)
    requires |s.cart| == 0
    ensures Purchase(s, o1) == Purchase(s, o2)
  {
  }

  /** Scanning a product, adding it, and scanning and adding it again: one line
      with quantity 2, whatever the cart held for other products. */
  lemma LoadAddTwice(s: PageState, p: Product)
    requires PageInv(s) && !HasLine(s.cart, p.prd_id) && !AllWhitespace(p.code)
    ensures var s1 := AddToCart(LoadProduct(EditCode(s, p.code), Found(p)).state);
      var s2 := AddToCart(LoadProduct(EditCode(s1, p.code), Found(p)).state);
      && |s2.cart| == |s.cart| + 1
      && s2.cart[|s.cart|].prd_id == p.prd_id
      && s2.cart[|s.cart|].quantity == 2
      && s2.cart[|s.cart|].subtotal == 2 * p.price
      && s2.cart[..|s.cart|] == s.cart
  {
    var s1 := AddToCart(LoadProduct(EditCode(s, p.code), Found(p)).state);
    assert s1.cart == AddProduct(s.cart, p);
    assert s1.cart[|s.cart|].prd_id == p.prd_id;
    assert HasLine(s1.cart, p.prd_id);
    var s2 := AddToCart(LoadProduct(EditCode(s1, p.code), Found(p)).state);
    assert s2.cart == AddProduct(s1.cart, p);
    assert forall i :: 0 <= i < |s.cart| ==> s1.cart[i] == s.cart[i] && s.cart[i].prd_id != p.prd_id;
  }
}

=== FILE: text.dfy ===
/**
 The three JavaScript string operations the front end relies on:
 `String.prototype.trim`, `toLowerCase` (restricted to ASCII letters) and
 `includes`.
 */
module Text {

  /** ECMAScript WhiteSpace and LineTerminator code points: what `trim` strips. */
  predicate IsJsWhitespace(c: char) {
    || c == '\t' || c == '\n' || c == '\U{000B}' || c == '\U{000C}' || c == '\r'
    || c == ' ' || c == '\U{00A0}' || c == '\U{1680}'
    || ('\U{2000}' <= c <= '\U{200A}')
    || c == '\U{2028}' || c == '\U{2029}' || c == '\U{202F}' || c == '\U{205F}'
    || c == '\U{3000}' || c == '\U{FEFF}'
  }

  /** Every character of `s` is whitespace (vacuously true of ""). */
  predicate AllWhitespace(s: string) {
    forall i :: 0 <= i < |s| ==> IsJsWhitespace(s[i])
  }

  /** Number of whitespace characters at the front of `s`. */
  function LeadingWhitespace(s: string): (n: nat)
    ensures n <= |s|
    ensures forall i :: 0 <= i < n ==> IsJsWhitespace(s[i])
    ensures n < |s| ==> !IsJsWhitespace(s[n])
  {
    if |s| > 0 && IsJsWhitespace(s[0]) then 1 + LeadingWhitespace(s[1..]) else 0
  }

  /** Number of whitespace characters at the back of `s`. */
  function TrailingWhitespace(s: string): (n: nat)
    ensures n <= |s|
    ensures forall i :: |s| - n <= i < |s| ==> IsJsWhitespace(s[i])
    ensures n < |s| ==> !IsJsWhitespace(s[|s| - n - 1])
  {
    if |s| > 0 && IsJsWhitespace(s[|s| - 1]) then 1 + TrailingWhitespace(s[..|s| - 1]) else 0
  }

  /** `s.trim()`: leading and trailing whitespace removed. */
  function Trim(s: string): string {
    var t := s[LeadingWhitespace(s)..];
    t[..|t| - TrailingWhitespace(t)]
  }

  /** `s.trim()` is the contiguous middle of `s` between two all-whitespace margins,
      and when it is not empty it neither starts nor ends with whitespace. */
  lemma TrimIsMiddleSlice(s: string)
    ensures exists i, j :: 0 <= i <= j <= |s| && Trim(s) == s[i..j]
                          && AllWhitespace(s[..i]) && AllWhitespace(s[j..])
    ensures |Trim(s)| > 0 ==> !IsJsWhitespace(Trim(s)[0]) && !IsJsWhitespace(Trim(s)[|Trim(s)| - 1])
  {
    var i := LeadingWhitespace(s);
    var t := s[i..];
    var j := i + |t| - TrailingWhitespace(t);
    assert Trim(s) == s[i..j];
    assert forall k :: 0 <= k < |s| - j ==> s[j..][k] == t[|t| - TrailingWhitespace(t) + k];
  }

  /** `!s.trim()` holds exactly when `s` is empty or consists only of whitespace. */
  lemma TrimEmptyIffAllWhitespace(s: string)
    ensures |Trim(s)| == 0 <==> AllWhitespace(s)
  {
  }

  /** ASCII upper-case letters mapped to lower case; everything else unchanged. */
  function LowerChar(c: char): char {
    if 'A' <= c <= 'Z' then (c as int + 32) as char else c
  }

  /** `s.toLowerCase()` over the ASCII letters: no capital letter survives, and
      every other character is kept. */
  function ToLower(s: string): (r: string)
    ensures |r| == |s|
    ensures forall i :: 0 <= i < |r| ==> !('A' <= r[i] <= 'Z')
    ensures forall i :: 0 <= i < |s| ==>
      r[i] == s[i] || ('A' <= s[i] <= 'Z' && r[i] as int == s[i] as int + 32)
  {
    seq(|s|, i requires 0 <= i < |s| => LowerChar(s[i]))
  }

  /** `kw` occurs at position `i` of `s` when ASCII case is ignored on `s`'s side. */
  ghost predicate OccursFolded(s: string, kw: string, i: int) {
    0 <= i && i + |kw| <= |s| && forall j :: 0 <= j < |kw| ==> LowerChar(s[i + j]) == kw[j]
  }

  /** An occurrence in the lower-cased text is an occurrence ignoring case. */
  lemma OccursLowerIffFolded(s: string, kw: string, i: int)
    ensures OccursAt(ToLower(s), kw, i) <==> OccursFolded(s, kw, i)
  {
    if 0 <= i && i + |kw| <= |s| {
      var w := ToLower(s)[i..i + |kw|];
      assert forall j :: 0 <= j < |kw| ==> w[j] == LowerChar(s[i + j]);
      if OccursFolded(s, kw, i) {
        assert w == kw;
      }
    }
  }

  /** `s.toLowerCase().includes(kw)` holds exactly when `kw` occurs in `s`
      ignoring the case of `s`'s ASCII letters. */
  lemma LowerIncludesIffFolded(s: string, kw: string)
    ensures Includes(ToLower(s), kw) <==> exists i :: OccursFolded(s, kw, i)
  {
    IncludesIffOccurs(ToLower(s), kw);
    forall i ensures OccursAt(ToLower(s), kw, i) <==> OccursFolded(s, kw, i) {
      OccursLowerIffFolded(s, kw, i);
    }
  }

  /** `sub` occurs at position `i` of `s`. */
  predicate OccursAt(s: string, sub: string, i: int) {
    0 <= i && i + |sub| <= |s| && s[i..i + |sub|] == sub
  }

  /** `s.includes(sub)`, computed by trying each start position from the left. */
  predicate Includes(s: string, sub: string)
    decreases |s|
  {
    (|sub| <= |s| && s[..|sub|] == sub) || (|s| > 0 && Includes(s[1..], sub))
  }

  /** `Includes` holds exactly when `sub` occurs somewhere in `s`. */
  lemma {:induction false} IncludesIffOccurs(s: string, sub: string)
    ensures Includes(s, sub) <==> exists i :: OccursAt(s, sub, i)
    decreases |s|
  {
    if |sub| <= |s| && s[..|sub|] == sub {
      assert OccursAt(s, sub, 0);
    } else if |s| > 0 {
      IncludesIffOccurs(s[1..], sub);
      if Includes(s[1..], sub) {
        var i :| OccursAt(s[1..], sub, i);
        assert s[1..][i..i + |sub|] == s[i + 1..i + 1 + |sub|];
        assert OccursAt(s, sub, i + 1);
      } else if i :| OccursAt(s, sub, i) {
        assert i != 0;
        assert s[1..][i - 1..i - 1 + |sub|] == s[i..i + |sub|];
        assert OccursAt(s[1..], sub, i - 1);
        assert false;
      }
    }
  }
}

=== FILE: wrappers.dfy ===
/** The optional-value type used where the front end holds `T | null`. */
module Wrappers {

  datatype Option<+T> = None | Some(value: T)
}
